=== FILE: README.md ===
# Line reverser, modelled in Dafny

This project models `process_file` from `wk4ass.py`, a small command-line
utility. It reads a text file and reverses the characters of every line. It
joins the lines back with line feeds and writes the result to a new file
named `"modified_"` followed by the input name. Every run ends in one of four
reported outcomes (success, file not found, I/O error, or an unexpected
error) or in an exception that none of its handlers catches.

The model has three modules:

- `Lines` (`lines.dfy`) defines the Python string operations the script
  relies on. `SplitLines` is `str.splitlines()`, `JoinNL` is `"\n".join`,
  and `SplitOnNewline` is `str.split("\n")`. The script never calls
  `split`; `SplitOnNewline` is the reference inverse of the join on line 13,
  used to state what the output looks like. `IsLineSplit` describes what a
  line split is, independently of how `SplitLines` scans. Two lemmas show
  that `SplitLines` meets that description and is the only split that does.
- `LineReverser` (`transform.dfy`) defines `Reverse` (`line[::-1]`),
  `Transform` (lines 11-13) and `OutName` (line 16), with their lemmas.
- `FileProcess` (`process.dfy`) defines `ProcessFile`, one run over an
  abstract file system, which is a map from names to decoded contents. It
  also models the ordered `except` clauses (lines 22-27) as a first-match
  search over the handler classes.

The operating system's failures are parameters of `ProcessFile`. Opening or
reading the input may raise an exception (a name too long, permission
denied, a directory, an undecodable byte), also for a name the file system
map does not hold. Opening the
output may fail. A write may fail after part of the text is written. A name
holding a NUL character is decided by the model itself: `open` refuses it
with `ValueError: embedded null byte` (the POSIX message) before looking at
the file system.

Three points where the code behaves differently from what a reader of its
comments and messages might expect; the model follows the code:

- The comment on line 10 speaks of reversing "each line", and a reader might
  expect the content to be cut only at `\n`. The code calls
  `str.splitlines()`, which also breaks on `\r`, `\r\n` (as one boundary),
  `\v`, `\f`, `\x1c`-`\x1e`, `\x85`, U+2028 and U+2029. `SplitLines` does
  the same. Every such boundary between two lines comes out as `\n`
  (`TransformBreakBetween`, and `TransformNormalisesBreaks` for `\r\n` and
  a lone `\r` side by side), and a final one is dropped
  (`TransformFinalBreak`). In the script itself, `open` on line 7
  reads in text mode, which already turns `\r\n` and a lone `\r` into `\n`;
  so the surprise there is the other eight boundaries. The model takes
  contents before that translation. This gives the same lines, because
  `\r\n`, `\r` and `\n` each end exactly one line under `splitlines()`, so
  `SplitLinesMixedBreaks` and `TransformNormalisesBreaks` describe the lines
  line 11 sees.
- A reader might expect the output to have as many lines as the input. That
  holds when the output is split on `"\n"` (`Transform`). It fails under
  `splitlines` when the last input line is empty: `"ab\n\n"` has two lines,
  but its output `"ba\n"` has one (`TrailingEmptyLine`).
- A reader might expect the output next to the input. The code (line 16)
  prefixes the whole name the user typed. So `sub/notes.txt` becomes
  `modified_sub/notes.txt`, and opening it fails with `FileNotFoundError`
  when no `modified_sub` directory exists. The script then reports "The file
  does not exist" (line 23) even though the input exists. `ProcessFile`
  allows this: an `OpenFailed` write fault may carry a `FileNotFound` error.

## Model

| member | source | states |
|---|---|---|
| `Lines.IsLineBreak` | wk4ass.py:11 | The characters `splitlines()` breaks on: `\n`, `\v`, `\f`, `\r`, `\x1c`-`\x1e`, `\x85`, U+2028 and U+2029. |
| `Lines.LineBreakCharacters` | wk4ass.py:11 | `\n`, `\r`, U+2028 and U+2029 are boundaries; no printable ASCII character and no tab is one. |
| `Lines.FirstBreak` | wk4ass.py:11 | The first line boundary of a text: no boundary before it, and a boundary (or the end) at it. |
| `Lines.FirstBreakUnique` | wk4ass.py:11 | Any index with no boundary before it and a boundary (or the end) at it is the first boundary. |
| `Lines.TerminatorLength` | wk4ass.py:11 | A terminator is `\r\n` taken as one unit or a single boundary character. A lone `\r` is never followed by `\n`. It is empty only at the end of the text. |
| `Lines.SplitLines` | wk4ass.py:11 | `splitlines()` returns lines that hold no boundary character. It returns no lines exactly when the content is empty. |
| `Lines.SplitLinesIsLineSplit` | wk4ass.py:11 | The lines of `splitlines()`, each followed by its removed terminator, spell out the content. All terminators are real boundaries except an empty one after a non-empty last line, and `\r\n` is never split. |
| `Lines.LineSplitUnique` | wk4ass.py:11 | Any split meeting that description has exactly the lines of `splitlines()`. The line split of a text is unique. |
| `Lines.SplitLinesCons` | wk4ass.py:11 | A boundary-free line, one terminator, and the rest of the text split into that line followed by the lines of the rest, provided that, when the terminator is a lone `\r`, the rest does not start with `\n`. |
| `Lines.SplitLinesSingle` | wk4ass.py:11 | A non-empty text without boundaries is a single line. |
| `Lines.JoinNL` | wk4ass.py:13 | `"\n".join`: the lines with one line feed between neighbours and none at the end. Its contract is stated by the lemmas below and by its inverse `SplitOnNewline`. |
| `Lines.JoinNLCons` | wk4ass.py:13 | `"\n".join` puts exactly one line feed between a line and the join of the following lines. |
| `Lines.JoinNLLength` | wk4ass.py:13 | The join is as long as all the lines together plus one line feed fewer than there are lines. |
| `Lines.FirstNewline` | wk4ass.py:13 | Reference inverse of the join (the script does not call `split`): the first line feed of a text, with none before it and a line feed (or the end) at it. |
| `Lines.SplitOnNewline` | wk4ass.py:13 | Reference inverse of the join (the script does not call `split`): splitting on `"\n"` always yields at least one piece, and no piece holds a line feed. |
| `Lines.JoinSplitOnNewline` | wk4ass.py:13 | Joining with `"\n"` undoes splitting on `"\n"`, for every text. The split is the reference inverse used to state the join's contract. |
| `Lines.SplitOnNewlineJoin` | wk4ass.py:13 | Splitting on `"\n"` recovers every non-empty list of lines that hold no line feed. So the join puts exactly one line feed between neighbouring lines and none at the end. |
| `Lines.SplitLinesJoin` | wk4ass.py:11-13 | `splitlines()` recovers boundary-free lines joined with `"\n"` when the last line is non-empty. |
| `Lines.JoinSplitLines` | wk4ass.py:11-13 | Joining the lines of `splitlines()` with `"\n"` gives the content back when its only boundary is `\n` and it does not end in one. |
| `LineReverser.Reverse` | wk4ass.py:12 | `line[::-1]` has the line's length. Character `i` is the line's character `len - 1 - i`. |
| `LineReverser.ReverseReverse` | wk4ass.py:12 | Reversing a line twice gives back the line. |
| `LineReverser.ReverseBreakFree` | wk4ass.py:12 | A reversed line holds a boundary exactly when the line does. |
| `LineReverser.ReverseAll` | wk4ass.py:12 | The list comprehension keeps the number of lines, and entry `i` is line `i` reversed. |
| `LineReverser.ReverseAllReverseAll` | wk4ass.py:12 | Reversing every line twice gives back the list of lines. |
| `LineReverser.ModifiedLines` | wk4ass.py:11-12 | There are as many modified lines as split lines. Modified line `i` is the reverse of input line `i`, and no modified line holds a boundary. |
| `LineReverser.ModifiedLinesSplit` | wk4ass.py:11-13 | For non-empty content, splitting the joined modified lines on `"\n"` gives back exactly the modified lines. |
| `LineReverser.Transform` | wk4ass.py:11-13 | Empty content gives empty output. Splitting non-empty output on `"\n"` gives one piece per input line, piece `i` being input line `i` reversed. |
| `LineReverser.TransformTwice` | wk4ass.py:11-13 | Running the transformation twice gives back, unchanged, any content whose only boundary is `\n` and that does not end in `\n`. |
| `LineReverser.LastLineNonEmpty` | wk4ass.py:11 | Content that does not end in a boundary has a non-empty last line. |
| `LineReverser.SplitLinesMixedBreaks` | wk4ass.py:11 | `"a\r\nb\rc"` splits into `"a"`, `"b"`, `"c"`: `\r\n` is one boundary and a lone `\r` is another. |
| `LineReverser.TransformNormalisesBreaks` | wk4ass.py:11-13 | Both `\r\n` and a lone `\r` come out as a single `\n`: `"a\r\nb\rc"` becomes `"a\nb\nc"`. |
| `LineReverser.TransformBreakBetween` | wk4ass.py:11-13 | Each of the ten boundary characters between two lines comes out as a single `\n`. |
| `LineReverser.TransformFinalBreak` | wk4ass.py:11-13 | A boundary at the end of the text starts no new line and is dropped from the output. |
| `LineReverser.TrailingEmptyLine` | wk4ass.py:11-13 | `"ab\n\n"` has the lines `"ab"` and `""`. Its output is `"ba\n"`, which `splitlines()` counts as one line. |
| `LineReverser.OutName` | wk4ass.py:16 | The output name is `"modified_"` followed by the input name, unaltered. |
| `LineReverser.OutNameInjective` | wk4ass.py:16 | Different inputs get different output names. The output name never equals the input name. |
| `LineReverser.OutNameExample` | wk4ass.py:16 | `"notes.txt"` becomes `"modified_notes.txt"`. |
| `FileProcess.IsInstance` | wk4ass.py:22-26 | `isinstance` for the three handler classes: `FileNotFoundError` is an `OSError`, which is an `Exception`; `KeyboardInterrupt` and `SystemExit` are not `Exception`s. |
| `FileProcess.ExceptionHierarchy` | wk4ass.py:22-26 | Every `FileNotFoundError` is an `OSError` and every `OSError` an `Exception`; an exception outside `Exception` matches none of the handler classes. |
| `FileProcess.Handlers` | wk4ass.py:22-26 | The handler classes in the order the `except` clauses are written. |
| `FileProcess.FirstMatch` | wk4ass.py:22-27 | The handler chosen for an exception is the first one whose class matches it. None of the earlier handlers match. |
| `FileProcess.Classify` | wk4ass.py:22-27 | An exception never yields success. It is reported as not found exactly when it is `FileNotFoundError`, as an I/O error exactly when it is any other `OSError`, and as unexpected, with its message, exactly when it is another `Exception`. An exception outside `Exception` is caught by no handler and ends the run uncaught. |
| `FileProcess.NotFoundHandledFirst` | wk4ass.py:22-25 | `FileNotFoundError` matches both the not-found and the `IOError` handler, and the not-found handler wins because it comes first. With the two swapped, the I/O handler would win. |
| `FileProcess.ProcessFile` | wk4ass.py:5-27 | A name with a NUL gives the unexpected error "embedded null byte" with nothing written. A failed open or read, for a present or missing name, is classified with nothing written. Otherwise a missing input gives NotFound. The run succeeds exactly when the name has no NUL, the input exists and nothing fails; it then reports `modified_<name>` and adds or overwrites only that entry with the transformed content. A failed open of the output writes nothing, and a failed write leaves only a prefix of the output. No other entry changes on any path, the input included. |

## Left out

- The interactive prompt (line 3) is left out. The file name is a parameter of `ProcessFile`.
- The console messages (lines 20-27) are left out. Each message is one `Outcome` value, and the unexpected case carries the exception's message. An `Uncaught` outcome stands for the traceback Python prints.
- Text-mode decoding and newline translation by `open` (lines 7 and 17) are left out. Contents are decoded `seq<char>` taken before the newline translation on read, which does not change the lines `splitlines()` finds; the translation of `\n` on write (to `\r\n` on Windows) is not modelled. A decoding failure is modelled only as an `OtherException` read fault.
- ProcessFile: the message for a NUL in the name is the POSIX one; on Windows `open` says "embedded null character" instead.
- ProcessFile: the real causes of I/O and unexpected errors (permissions, over-long names, device faults, decoding, an interrupt) are not derived from the file system. They enter as the `readFault` and `writeFault` parameters, so the model does not say which names or files raise them; only the embedded NUL is decided from the name.
- ProcessFile: map keys are taken to name distinct files. Symbolic links, hard links and case-insensitive file systems, under which `modified_<name>` could be the input itself or alias another file, are not modelled.
- Directories are left out. The file system is a flat map from names to contents. A name such as `modified_sub/notes.txt` in a missing directory appears only as an `OpenFailed` write fault.
- Where a failed write stops is not determined by the model. `WriteFailed` says how many characters reached the file. The model does not say which buffer flush or `close` raised the error.
- Grapheme clusters are left out. Line reversal works on code points, as `str` slicing does, so a combining mark moves to the other side of its base character in both the script and the model.
- `iris_data_analysis.py` is not part of this model. It is plotting and statistics library calls over floating-point data, with no algorithm of its own.

=== FILE: lines.dfy ===
/** Line splitting and joining, as the line reverser uses them: Python's
    `str.splitlines()` (no `keepends`), `str.split("\n")` and `"\n".join(...)`,
    all on already-decoded text. */
module Lines {

  /** The line boundaries `str.splitlines` recognises: line feed, vertical tab,
      form feed, carriage return, the file/group/record separators, next line,
      and the Unicode line and paragraph separators. */
  predicate IsLineBreak(c: char) {
    var n := c as int;
    n == 0x0A || n == 0x0B || n == 0x0C || n == 0x0D
    || n == 0x1C || n == 0x1D || n == 0x1E
    || n == 0x85 || n == 0x2028 || n == 0x2029
  }

  /** The usual line endings are boundaries, and no printable ASCII
      character nor the tab is one. */
  lemma LineBreakCharacters(c: char)
    ensures c == '\n' || c == '\r' || c == '\U{2028}' || c == '\U{2029}' ==> IsLineBreak(c)
    ensures ' ' <= c <= '~' || c == '\t' ==> !IsLineBreak(c)
  {
  }

  /** A line as `splitlines` returns it: no boundary character inside. */
  predicate BreakFree(s: seq<char>) {
    forall i :: 0 <= i < |s| ==> !IsLineBreak(s[i])
  }

  predicate NewlineFree(s: seq<char>) {
    forall i :: 0 <= i < |s| ==> s[i] != '\n'
  }

  /** Text whose only line boundary is the line feed. */
  predicate OnlyNewlineBreaks(s: seq<char>) {
    forall i :: 0 <= i < |s| ==> IsLineBreak(s[i]) ==> s[i] == '\n'
  }

  /** The terminators `splitlines` removes: "\r\n" as one unit, or any single
      boundary character. */
  predicate IsTerminator(t: seq<char>) {
    t == ['\r', '\n'] || (|t| == 1 && IsLineBreak(t[0]))
  }

  /** Index of the first boundary character of `s`, or `|s|` if there is none. */
  function FirstBreak(s: seq<char>): (k: nat)
    ensures k <= |s|
    ensures BreakFree(s[..k])
    ensures k < |s| ==> IsLineBreak(s[k])
  {
    if s == [] then 0
    else if IsLineBreak(s[0]) then 0
    else
      var k' := FirstBreak(s[1..]);
      assert s[..k' + 1] == [s[0]] + s[1..][..k'];
      1 + k'
  }

  /** The first boundary is the only index with no boundary before it and a
      boundary (or the end of the text) at it. */
  lemma {:induction false} FirstBreakUnique(s: seq<char>, k: nat)
    requires k <= |s|
    requires BreakFree(s[..k])
    requires k < |s| ==> IsLineBreak(s[k])
    ensures FirstBreak(s) == k
    decreases k
  {
    if k > 0 {
      assert s[..k][0] == s[0];
      assert s[1..][..k - 1] == s[..k][1..];
      FirstBreakUnique(s[1..], k - 1);
    }
  }

  /** Length of the terminator found at index `k`: 0 at the end of the text,
      2 for "\r\n", 1 for any other boundary (a lone "\r" included). */
  function TerminatorLength(s: seq<char>, k: nat): (n: nat)
    requires k <= |s|
    requires k < |s| ==> IsLineBreak(s[k])
    ensures k + n <= |s|
    ensures n == 0 <==> k == |s|
    ensures IsTerminator(s[k..k + n]) || n == 0
    ensures n == 1 && s[k] == '\r' ==> k + 1 == |s| || s[k + 1] != '\n'
  {
    if k == |s| then 0
    else if s[k] == '\r' && k + 1 < |s| && s[k + 1] == '\n' then 2
    else 1
  }

  /** `str.splitlines()`: the lines of `s` with their terminators removed. A
      terminator at the very end does not start an extra empty line, and the
      empty text has no lines at all. */
  function SplitLines(s: seq<char>): (lines: seq<seq<char>>)
    ensures forall i :: 0 <= i < |lines| ==> BreakFree(lines[i])
    ensures |lines| == 0 <==> |s| == 0
    decreases |s|
  {
    if s == [] then []
    else
      var k := FirstBreak(s);
      [s[..k]] + SplitLines(s[k + TerminatorLength(s, k)..])
  }

  /** The terminator removed after each line of `SplitLines(s)`; only the last
      can be empty. */
  function Terminators(s: seq<char>): (ts: seq<seq<char>>)
    decreases |s|
  {
    if s == [] then []
    else
      var k := FirstBreak(s);
      var n := TerminatorLength(s, k);
      [s[k..k + n]] + Terminators(s[k + n..])
  }

  /** Lines and terminators laid back-to-back. */
  function Concat(lines: seq<seq<char>>, ts: seq<seq<char>>): seq<char>
    requires |lines| == |ts|
  {
    if lines == [] then [] else lines[0] + ts[0] + Concat(lines[1..], ts[1..])
  }

  /** What it means for `lines` to be the line split of `s`, independently of
      how `SplitLines` scans: each line with its terminator, back to back,
      spells out `s`; no line holds a boundary; every terminator is a real one
      except possibly an empty one after a non-empty last line; and a "\r" is
      never split from a "\n" right after it (the next piece would then be an
      empty line ended by that "\n"). */
  ghost predicate IsLineSplit(s: seq<char>, lines: seq<seq<char>>, ts: seq<seq<char>>) {
    && |lines| == |ts|
    && Concat(lines, ts) == s
    && (forall i :: 0 <= i < |lines| ==> BreakFree(lines[i]))
    && (forall i :: 0 <= i < |ts| ==>
          IsTerminator(ts[i]) || (i == |ts| - 1 && ts[i] == [] && lines[i] != []))
    && (forall i :: 0 <= i < |ts| - 1 && ts[i] == ['\r'] ==>
          !(lines[i + 1] == [] && ts[i + 1] == ['\n']))
  }

  lemma IsLineSplitTail(s: seq<char>, lines: seq<seq<char>>, ts: seq<seq<char>>)
    requires IsLineSplit(s, lines, ts)
    requires |lines| > 0
    ensures IsLineSplit(Concat(lines[1..], ts[1..]), lines[1..], ts[1..])
  {
    assert s == lines[0] + ts[0] + Concat(lines[1..], ts[1..]);
    var l', t' := lines[1..], ts[1..];
    forall i | 0 <= i < |t'|
      ensures IsTerminator(t'[i]) || (i == |t'| - 1 && t'[i] == [] && l'[i] != [])
    {
      assert t'[i] == ts[i + 1] && l'[i] == lines[i + 1];
    }
    forall i | 0 <= i < |t'| - 1 && t'[i] == ['\r']
      ensures !(l'[i + 1] == [] && t'[i + 1] == ['\n'])
    {
      assert t'[i] == ts[i + 1];
    }
  }

  /** Putting one more line and terminator in front of a split gives a split
      of the longer text. */
  lemma IsLineSplitCons(rest: seq<char>, lines: seq<seq<char>>, ts: seq<seq<char>>,
                        l0: seq<char>, t0: seq<char>)
    requires IsLineSplit(rest, lines, ts)
    requires BreakFree(l0)
    requires IsTerminator(t0) || (t0 == [] && l0 != [] && lines == [])
    requires t0 == ['\r'] && lines != [] ==> !(lines[0] == [] && ts[0] == ['\n'])
    ensures IsLineSplit(l0 + t0 + rest, [l0] + lines, [t0] + ts)
  {
    var L, T := [l0] + lines, [t0] + ts;
    assert L[1..] == lines && T[1..] == ts;
    forall i | 0 <= i < |T|
      ensures IsTerminator(T[i]) || (i == |T| - 1 && T[i] == [] && L[i] != [])
    {
      if i > 0 {
        assert T[i] == ts[i - 1] && L[i] == lines[i - 1];
      }
    }
    forall i | 0 <= i < |T| - 1 && T[i] == ['\r']
      ensures !(L[i + 1] == [] && T[i + 1] == ['\n'])
    {
      if i > 0 {
        assert T[i] == ts[i - 1];
      }
    }
  }

  /** Text that does not start with "\n" does not start with an empty line
      ended by "\n". */
  lemma FirstPieceNotLineFeed(s: seq<char>)
    requires s != [] && s[0] != '\n'
    ensures !(SplitLines(s)[0] == [] && Terminators(s)[0] == ['\n'])
  {
    var k := FirstBreak(s);
    var n := TerminatorLength(s, k);
    assert SplitLines(s)[0] == s[..k];
    assert Terminators(s)[0] == s[k..k + n];
    if k == 0 && n == 1 {
      assert s[k..k + n][0] == s[0];
    }
  }

  /** `SplitLines` meets the characterisation. */
  lemma {:induction false} SplitLinesIsLineSplit(s: seq<char>)
    ensures IsLineSplit(s, SplitLines(s), Terminators(s))
    decreases |s|
  {
    if s != [] {
      var k := FirstBreak(s);
      var n := TerminatorLength(s, k);
      var rest := s[k + n..];
      SplitLinesIsLineSplit(rest);
      var l', t' := SplitLines(rest), Terminators(rest);
      assert s == s[..k] + s[k..k + n] + rest;
      if n == 1 && s[k] == '\r' && rest != [] {
        assert rest[0] == s[k + 1];
        FirstPieceNotLineFeed(rest);
      }
      IsLineSplitCons(rest, l', t', s[..k], s[k..k + n]);
    }
  }

  /** One line, one terminator, and the rest: the line comes first, and the
      rest is split on its own. */
  lemma SplitLinesCons(line: seq<char>, t: seq<char>, rest: seq<char>)
    requires BreakFree(line)
    requires IsTerminator(t)
    requires t == ['\r'] ==> rest == [] || rest[0] != '\n'
    ensures SplitLines(line + t + rest) == [line] + SplitLines(rest)
  {
    var s := line + t + rest;
    var k := |line|;
    assert s[..k] == line;
    assert s[k] == t[0];
    FirstBreakUnique(s, k);
    assert TerminatorLength(s, k) == |t|;
    assert s[k + |t|..] == rest;
  }

  /** A break-free, non-empty text is a single line. */
  lemma SplitLinesSingle(line: seq<char>)
    requires BreakFree(line) && line != []
    ensures SplitLines(line) == [line]
  {
    assert line[..|line|] == line;
    FirstBreakUnique(line, |line|);
    assert SplitLines(line) == [line] + SplitLines([]);
  }

  /** In a split, the piece after a lone "\r" does not start with "\n". */
  lemma LineSplitCr(s: seq<char>, lines: seq<seq<char>>, ts: seq<seq<char>>)
    requires IsLineSplit(s, lines, ts)
    requires |lines| > 1 && ts[0] == ['\r']
    ensures |s| > |lines[0]| + 1 && s[|lines[0]| + 1] != '\n'
  {
    assert !(lines[1] == [] && ts[1] == ['\n']);
    var p1 := lines[1] + ts[1];
    var tail := Concat(lines[1..], ts[1..]);
    assert s == lines[0] + ts[0] + tail;
    assert tail == p1 + Concat(lines[2..], ts[2..]);
    if lines[1] != [] {
      assert BreakFree(lines[1]);
      assert p1[0] == lines[1][0];
    } else {
      assert IsTerminator(ts[1]);
    }
    assert s[|lines[0]| + 1] == tail[0] == p1[0];
  }

  /** The first piece of a split is the first line and terminator that
      `SplitLines` and `Terminators` produce. */
  lemma LineSplitHead(s: seq<char>, lines: seq<seq<char>>, ts: seq<seq<char>>)
    requires IsLineSplit(s, lines, ts)
    requires |lines| > 0
    ensures FirstBreak(s) == |lines[0]|
    ensures TerminatorLength(s, |lines[0]|) == |ts[0]|
    ensures s[..|lines[0]|] == lines[0]
    ensures s[|lines[0]|..|lines[0]| + |ts[0]|] == ts[0]
    ensures s[|lines[0]| + |ts[0]|..] == Concat(lines[1..], ts[1..])
  {
    var l0, t0 := lines[0], ts[0];
    var tail := Concat(lines[1..], ts[1..]);
    assert s == l0 + t0 + tail;
    var k := |l0|;
    assert s[..k] == l0;
    if t0 == [] {
      assert |ts| == 1;
      assert tail == [];
    } else {
      assert IsTerminator(t0);
      assert s[k] == t0[0];
    }
    FirstBreakUnique(s, k);
    if t0 == ['\r'] {
      if |lines| > 1 {
        LineSplitCr(s, lines, ts);
      } else {
        assert tail == [];
      }
    }
    assert s[k..k + |t0|] == t0;
    assert s[k + |t0|..] == tail;
  }

  /** Any split that meets the characterisation has the lines `SplitLines`
      computes: the split of a text into lines is unique. */
  lemma {:induction false} LineSplitUnique(s: seq<char>, lines: seq<seq<char>>, ts: seq<seq<char>>)
    requires IsLineSplit(s, lines, ts)
    ensures lines == SplitLines(s)
    decreases |lines|
  {
    if lines == [] {
      assert s == Concat(lines, ts) == [];
    } else {
      var tail := Concat(lines[1..], ts[1..]);
      LineSplitHead(s, lines, ts);
      IsLineSplitTail(s, lines, ts);
      LineSplitUnique(tail, lines[1..], ts[1..]);
      SplitLinesStep(s, |lines[0]|, |ts[0]|);
      assert lines == [lines[0]] + lines[1..];
    }
  }

  /** One step of `SplitLines` from a known first line. */
  lemma SplitLinesStep(s: seq<char>, k: nat, n: nat)
    requires s != [] && FirstBreak(s) == k && k <= |s|
    requires TerminatorLength(s, k) == n
    ensures SplitLines(s) == [s[..k]] + SplitLines(s[k + n..])
  {
  }

  /** The number of characters in all the lines together. */
  function TotalLength(lines: seq<seq<char>>): nat {
    if lines == [] then 0 else |lines[0]| + TotalLength(lines[1..])
  }

  /** `"\n".join(lines)`: one line feed between neighbours, none at the end. */
  function JoinNL(lines: seq<seq<char>>): seq<char> {
    if |lines| == 0 then []
    else if |lines| == 1 then lines[0]
    else lines[0] + ['\n'] + JoinNL(lines[1..])
  }

  /** The join is as long as the lines together, plus one line feed fewer
      than there are lines. */
  lemma {:induction false} JoinNLLength(lines: seq<seq<char>>)
    requires lines != []
    ensures |JoinNL(lines)| == TotalLength(lines) + |lines| - 1
  {
    if |lines| > 1 {
      JoinNLLength(lines[1..]);
    }
  }

  lemma JoinNLCons(line: seq<char>, tail: seq<seq<char>>)
    requires tail != []
    ensures JoinNL([line] + tail) == line + ['\n'] + JoinNL(tail)
  {
    assert ([line] + tail)[1..] == tail;
  }

  /** Index of the first line feed of `s`, or `|s|` if there is none. */
  function FirstNewline(s: seq<char>): (k: nat)
    ensures k <= |s|
    ensures NewlineFree(s[..k])
    ensures k < |s| ==> s[k] == '\n'
  {
    if s == [] then 0
    else if s[0] == '\n' then 0
    else
      var k' := FirstNewline(s[1..]);
      assert s[..k' + 1] == [s[0]] + s[1..][..k'];
      1 + k'
  }

  lemma {:induction false} FirstNewlineUnique(s: seq<char>, k: nat)
    requires k <= |s|
    requires NewlineFree(s[..k])
    requires k < |s| ==> s[k] == '\n'
    ensures FirstNewline(s) == k
    decreases k
  {
    if k > 0 {
      assert s[..k][0] == s[0];
      assert s[1..][..k - 1] == s[..k][1..];
      FirstNewlineUnique(s[1..], k - 1);
    }
  }

  /** `str.split("\n")`: the pieces between line feeds. Unlike `splitlines`,
      the empty text gives one empty piece and a final line feed gives a final
      empty piece. */
  function SplitOnNewline(s: seq<char>): (parts: seq<seq<char>>)
    ensures |parts| >= 1
    ensures forall i :: 0 <= i < |parts| ==> NewlineFree(parts[i])
    decreases |s|
  {
    var k := FirstNewline(s);
    if k == |s| then [s] else [s[..k]] + SplitOnNewline(s[k + 1..])
  }

  /** Joining the pieces of a split on line feeds gives the text back. */
  lemma {:induction false} JoinSplitOnNewline(s: seq<char>)
    ensures JoinNL(SplitOnNewline(s)) == s
    decreases |s|
  {
    var k := FirstNewline(s);
    if k < |s| {
      var rest := s[k + 1..];
      var tail := SplitOnNewline(rest);
      JoinSplitOnNewline(rest);
      assert SplitOnNewline(s) == [s[..k]] + tail;
      JoinNLCons(s[..k], tail);
      assert s == s[..k] + ['\n'] + rest;
    }
  }

  /** Splitting a join on line feeds gives back the lines, provided there is
      at least one line and none holds a line feed. */
  lemma {:induction false} SplitOnNewlineJoin(lines: seq<seq<char>>)
    requires |lines| > 0
    requires forall i :: 0 <= i < |lines| ==> NewlineFree(lines[i])
    ensures SplitOnNewline(JoinNL(lines)) == lines
    decreases |lines|
  {
    var j := JoinNL(lines);
    if |lines| == 1 {
      assert j[..|j|] == j;
      FirstNewlineUnique(j, |j|);
    } else {
      var rest := JoinNL(lines[1..]);
      assert j == lines[0] + ['\n'] + rest;
      var k := |lines[0]|;
      assert j[..k] == lines[0];
      FirstNewlineUnique(j, k);
      assert j[k + 1..] == rest;
      SplitOnNewlineJoin(lines[1..]);
      assert lines == [lines[0]] + lines[1..];
    }
  }

  /** `splitlines` undoes a join on line feeds when no line holds a boundary
      and the last line is non-empty (an empty last line would leave a final
      line feed, which `splitlines` drops). */
  lemma {:induction false} SplitLinesJoin(lines: seq<seq<char>>)
    requires forall i :: 0 <= i < |lines| ==> BreakFree(lines[i])
    requires lines == [] || lines[|lines| - 1] != []
    ensures SplitLines(JoinNL(lines)) == lines
    decreases |lines|
  {
    var j := JoinNL(lines);
    if |lines| == 1 {
      assert j[..|j|] == j;
      FirstBreakUnique(j, |j|);
      assert SplitLines(j) == [j] + SplitLines([]);
    } else if |lines| > 1 {
      var rest := JoinNL(lines[1..]);
      assert j == lines[0] + ['\n'] + rest;
      var k := |lines[0]|;
      assert j[..k] == lines[0];
      assert IsLineBreak(j[k]);
      FirstBreakUnique(j, k);
      assert TerminatorLength(j, k) == 1;
      assert j[k + 1..] == rest;
      SplitLinesJoin(lines[1..]);
      assert lines == [lines[0]] + lines[1..];
    }
  }

  /** Cutting text whose only boundary is the line feed at its first line
      feed: the piece before is a line, the rest keeps the property and the
      last character. */
  lemma CutAtNewline(s: seq<char>, k: nat)
    requires OnlyNewlineBreaks(s)
    requires k < |s| && k == FirstBreak(s)
    requires s[|s| - 1] != '\n'
    ensures s == s[..k] + ['\n'] + s[k + 1..]
    ensures BreakFree(s[..k])
    ensures s[k + 1..] != [] && s[k + 1..][|s[k + 1..]| - 1] == s[|s| - 1]
    ensures OnlyNewlineBreaks(s[k + 1..])
  {
    var rest := s[k + 1..];
    assert s[k] == '\n';
    forall i | 0 <= i < |rest| ensures IsLineBreak(rest[i]) ==> rest[i] == '\n' {
      assert rest[i] == s[k + 1 + i];
    }
  }

  /** A join on line feeds undoes `splitlines` for text whose only boundary is
      the line feed and which does not end in one. */
  lemma {:induction false} JoinSplitLines(s: seq<char>)
    requires OnlyNewlineBreaks(s)
    requires s == [] || s[|s| - 1] != '\n'
    ensures JoinNL(SplitLines(s)) == s
    decreases |s|
  {
    if s != [] {
      var k := FirstBreak(s);
      if k == |s| {
        assert s[..k] == s;
        SplitLinesSingle(s);
      } else {
        var line, rest := s[..k], s[k + 1..];
        CutAtNewline(s, k);
        assert IsTerminator(['\n']) by { assert IsLineBreak('\n'); }
        SplitLinesCons(line, ['\n'], rest);
        JoinSplitLines(rest);
        assert SplitLines(rest) != [];
        JoinNLCons(line, SplitLines(rest));
      }
    }
  }
}

=== FILE: process.dfy ===
/** One run of the line reverser over a file system: read the named file,
    transform its content, write the result under the "modified_" name, and
    sort the run into one of four reported outcomes, or an exception no
    handler catches. The interactive prompt becomes the
    `name` parameter and the console messages become the returned `Outcome`;
    the failures the operating system may raise are given as parameters. */
module FileProcess {
  import opened Lines
  import opened LineReverser

  /** File names to decoded file contents. */
  type FileSystem = map<string, seq<char>>

  datatype Option<T> = None | Some(value: T)

  /** The kinds of `OSError` (which `IOError` names in Python 3). */
  datatype OSErrorKind = FileNotFound | PermissionDenied | IsADirectory | NameTooLong | OtherOSFailure

  /** An exception raised while opening, reading or writing: an `OSError` of
      some kind; any other `Exception` (a `ValueError` or a decoding error,
      say); or a `BaseException` that is not an `Exception`
      (`KeyboardInterrupt`, `SystemExit`). Each carries the message `str(e)`
      gives. */
  datatype Error =
    | OSError(kind: OSErrorKind, message: string)
    | OtherException(message: string)
    | BaseOnlyException(message: string)

  /** The exception classes named by the script's handlers. */
  datatype ExceptionClass = FileNotFoundErrorClass | IOErrorClass | ExceptionBaseClass

  /** Python's `isinstance`: `FileNotFoundError` is a subclass of `OSError`,
      which is a subclass of `Exception`; `KeyboardInterrupt` and `SystemExit`
      derive from `BaseException` only. */
  predicate IsInstance(e: Error, c: ExceptionClass) {
    match c
    case FileNotFoundErrorClass => e.OSError? && e.kind == FileNotFound
    case IOErrorClass => e.OSError?
    case ExceptionBaseClass => !e.BaseOnlyException?
  }

  /** The class hierarchy the handlers rely on: every `FileNotFoundError` is
      an `OSError`, every `OSError` is an `Exception`, and a `BaseException`
      outside `Exception` matches none of the three classes. */
  lemma ExceptionHierarchy(e: Error)
    ensures IsInstance(e, FileNotFoundErrorClass) ==> IsInstance(e, IOErrorClass)
    ensures IsInstance(e, IOErrorClass) ==> IsInstance(e, ExceptionBaseClass)
    ensures e.BaseOnlyException? ==> forall c :: !IsInstance(e, c)
  {
  }

  /** The `except` clauses in the order they are written (lines 22, 24, 26). */
  const Handlers: seq<ExceptionClass> := [FileNotFoundErrorClass, IOErrorClass, ExceptionBaseClass]

  /** Index of the first handler whose class the exception is an instance of;
      `|handlers|` when none is. */
  function FirstMatch(e: Error, handlers: seq<ExceptionClass>): (i: nat)
    ensures i <= |handlers|
    ensures forall j :: 0 <= j < i ==> !IsInstance(e, handlers[j])
    ensures i < |handlers| ==> IsInstance(e, handlers[i])
  {
    if handlers == [] then 0
    else if IsInstance(e, handlers[0]) then 0
    else 1 + FirstMatch(e, handlers[1..])
  }

  /** The outcome of a run: the success message with the output name, one of
      the three failure messages, or an exception no handler catches, which
      ends the script with a traceback. */
  datatype Outcome =
    | Success(written: string)
    | NotFound
    | IOFailure
    | Unexpected(message: string)
    | Uncaught(message: string)

  /** The outcome the first matching handler reports for an exception, or
      `Uncaught` when no handler matches. */
  function Classify(e: Error): (r: Outcome)
    ensures !r.Success?
    ensures r == NotFound <==> e.OSError? && e.kind == FileNotFound
    ensures r == IOFailure <==> e.OSError? && e.kind != FileNotFound
    ensures r.Unexpected? <==> e.OtherException?
    ensures r.Uncaught? <==> e.BaseOnlyException?
    ensures r.Unexpected? || r.Uncaught? ==> r.message == e.message
  {
    var i := FirstMatch(e, Handlers);
    assert i > 0 ==> !IsInstance(e, Handlers[0]);
    assert i > 1 ==> !IsInstance(e, Handlers[1]);
    assert i > 2 ==> !IsInstance(e, Handlers[2]);
    if i == |Handlers| then Uncaught(e.message)
    else if Handlers[i] == FileNotFoundErrorClass then NotFound
    else if Handlers[i] == IOErrorClass then IOFailure
    else Unexpected(e.message)
  }

  /** A `FileNotFoundError` is also an `OSError`, so both of the first two
      handlers match it; the not-found handler wins because it is written
      first. With the two swapped, it would be reported as an I/O error. */
  lemma NotFoundHandledFirst(message: string)
    ensures IsInstance(OSError(FileNotFound, message), FileNotFoundErrorClass)
    ensures IsInstance(OSError(FileNotFound, message), IOErrorClass)
    ensures Classify(OSError(FileNotFound, message)) == NotFound
    ensures FirstMatch(OSError(FileNotFound, message),
                       [IOErrorClass, FileNotFoundErrorClass, ExceptionBaseClass]) == 0
  {
  }

  /** How writing the output may fail: opening it for writing fails (nothing
      is created), or the open succeeds, truncating or creating the file, and
      the write fails after `kept` characters. */
  datatype WriteFault = OpenFailed(error: Error) | WriteFailed(error: Error, kept: nat)

  /** The message of the `ValueError` that `open` raises on POSIX, before it
      looks at the file system, for a name holding a NUL character. */
  const EmbeddedNullMessage: string := "embedded null byte"

  /** `process_file` (lines 1-27) on the file named `name`. `readFault` is
      the exception opening or reading the input raises, if any (a name too
      long, permission denied, a directory, an undecodable byte; a
      `FileNotFoundError` here is reported as not found even when the map
      holds the name, as for a file removed before it is opened); `writeFault` is how writing the output
      fails, if it does. */
  method ProcessFile(fs: FileSystem, name: string, readFault: Option<Error>, writeFault: Option<WriteFault>)
    returns (outcome: Outcome, fs': FileSystem)
    // A name with a NUL is refused by `open` before any lookup.
    ensures '\0' in name ==> outcome == Unexpected(EmbeddedNullMessage) && fs' == fs
    // A failed open or read is classified and nothing is written.
    ensures '\0' !in name && readFault.Some? ==> outcome == Classify(readFault.value) && fs' == fs
    // Otherwise a missing input is reported as not found.
    ensures '\0' !in name && readFault.None? && name !in fs ==> outcome == NotFound
    // Nothing is ever written for a missing input.
    ensures name !in fs ==> fs' == fs
    // The run succeeds exactly when the input exists and nothing fails.
    ensures outcome.Success? <==>
      '\0' !in name && name in fs && readFault.None? && writeFault.None?
    // On success the output name is reported and the output holds the
    // transformed input.
    ensures outcome.Success? ==> outcome.written == OutName(name)
    ensures outcome.Success? ==> OutName(name) in fs' && fs'[OutName(name)] == Transform(fs[name])
    ensures outcome.Success? ==> fs'.Keys == fs.Keys + {OutName(name)}
    // A failed write is classified; a failed open leaves no trace, a failed
    // write leaves the part written so far.
    ensures '\0' !in name && name in fs && readFault.None? && writeFault.Some? ==>
      outcome == Classify(writeFault.value.error)
    ensures writeFault.Some? && writeFault.value.OpenFailed? ==> fs' == fs
    ensures OutName(name) in fs' && !(OutName(name) in fs && fs'[OutName(name)] == fs[OutName(name)]) ==>
      name in fs && fs'[OutName(name)] <= Transform(fs[name])
    // Whatever happens, no entry but the output's changes, the input included.
    ensures forall k :: k != OutName(name) ==> (k in fs' <==> k in fs)
    ensures forall k :: k in fs && k != OutName(name) ==> fs'[k] == fs[k]
    ensures name in fs ==> name in fs' && fs'[name] == fs[name]
  {
    if '\0' in name {
      return Unexpected(EmbeddedNullMessage), fs;
    }
    if readFault.Some? {
      return Classify(readFault.value), fs;
    }
    if name !in fs {
      return NotFound, fs;
    }
    var content := fs[name];
    var modified := Transform(content);
    var newName := OutName(name);
    OutNameInjective(name, name);
    match writeFault {
      case None =>
        outcome, fs' := Success(newName), fs[newName := modified];
      case Some(OpenFailed(e)) =>
        outcome, fs' := Classify(e), fs;
      case Some(WriteFailed(e, kept)) =>
        var n := if kept < |modified| then kept else |modified|;
        outcome, fs' := Classify(e), fs[newName := modified[..n]];
    }
  }
}

=== FILE: transform.dfy ===
/** The text transformation of the line reverser: split the content into
    lines, reverse the characters of every line, and join the lines back with
    line feeds; plus the name of the file the result goes to. */
module LineReverser {
  import opened Lines

  /** `line[::-1]`: the characters of a line in reverse order. */
  function Reverse(s: seq<char>): (r: seq<char>)
    ensures |r| == |s|
    ensures forall i :: 0 <= i < |s| ==> r[i] == s[|s| - 1 - i]
  {
    if s == [] then [] else Reverse(s[1..]) + [s[0]]
  }

  /** Reversing a line twice gives back the line. */
  lemma ReverseReverse(s: seq<char>)
    ensures Reverse(Reverse(s)) == s
  {
    var r := Reverse(s);
    assert forall i :: 0 <= i < |s| ==> Reverse(r)[i] == r[|s| - 1 - i] == s[i];
  }

  /** A reversed line holds exactly the characters of the line, so it holds a
      boundary exactly when the line does. */
  lemma ReverseBreakFree(s: seq<char>)
    ensures BreakFree(Reverse(s)) <==> BreakFree(s)
  {
    var r := Reverse(s);
    if BreakFree(s) {
      forall i | 0 <= i < |r| ensures !IsLineBreak(r[i]) {
        assert r[i] == s[|s| - 1 - i];
      }
    }
    if BreakFree(r) {
      forall i | 0 <= i < |s| ensures !IsLineBreak(s[i]) {
        assert r[|s| - 1 - i] == s[i];
      }
    }
  }

  /** `[line[::-1] for line in lines]`. */
  function ReverseAll(lines: seq<seq<char>>): (r: seq<seq<char>>)
    ensures |r| == |lines|
    ensures forall i :: 0 <= i < |lines| ==> r[i] == Reverse(lines[i])
  {
    if lines == [] then [] else [Reverse(lines[0])] + ReverseAll(lines[1..])
  }

  /** Reversing every line twice gives back the lines. */
  lemma ReverseAllReverseAll(lines: seq<seq<char>>)
    ensures ReverseAll(ReverseAll(lines)) == lines
  {
    forall i | 0 <= i < |lines| ensures ReverseAll(ReverseAll(lines))[i] == lines[i] {
      ReverseReverse(lines[i]);
    }
  }

  /** The lines of the content, each reversed, are the modified lines: as many
      as there are input lines, line `i` the reverse of input line `i`, and
      none holding a boundary. */
  lemma ModifiedLines(content: seq<char>)
    ensures |ReverseAll(SplitLines(content))| == |SplitLines(content)|
    ensures forall i :: 0 <= i < |SplitLines(content)| ==>
      ReverseAll(SplitLines(content))[i] == Reverse(SplitLines(content)[i])
    ensures forall i :: 0 <= i < |SplitLines(content)| ==>
      BreakFree(ReverseAll(SplitLines(content))[i])
  {
    var lines := SplitLines(content);
    forall i | 0 <= i < |lines| ensures BreakFree(ReverseAll(lines)[i]) {
      ReverseBreakFree(lines[i]);
    }
  }

  /** The modified lines hold no line feed, so a split on line feeds
      recovers them from their join. */
  lemma ModifiedLinesSplit(content: seq<char>)
    ensures content != [] ==>
      SplitOnNewline(JoinNL(ReverseAll(SplitLines(content)))) == ReverseAll(SplitLines(content))
  {
    if content != [] {
      var modified := ReverseAll(SplitLines(content));
      ModifiedLines(content);
      forall i | 0 <= i < |modified| ensures NewlineFree(modified[i]) {
        assert BreakFree(modified[i]);
        assert IsLineBreak('\n');
      }
      SplitOnNewlineJoin(modified);
    }
  }

  /** The whole transformation of the file content (lines 11-13). The output
      is the modified lines with exactly one line feed between neighbours: a
      split on line feeds recovers them, one per input line, each the reverse
      of its input line. The empty content gives the empty output. */
  function Transform(content: seq<char>): (r: seq<char>)
    ensures content == [] ==> r == []
    ensures content != [] ==> SplitOnNewline(r) == ReverseAll(SplitLines(content))
    ensures content != [] ==> |SplitOnNewline(r)| == |SplitLines(content)|
    ensures content != [] ==> forall i :: 0 <= i < |SplitLines(content)| ==>
      SplitOnNewline(r)[i] == Reverse(SplitLines(content)[i])
  {
    ModifiedLinesSplit(content);
    JoinNL(ReverseAll(SplitLines(content)))
  }

  /** Applying the transformation twice gives back content whose only line
      boundary is the line feed and which does not end in one. */
  lemma TransformTwice(content: seq<char>)
    requires OnlyNewlineBreaks(content)
    requires content == [] || content[|content| - 1] != '\n'
    ensures Transform(Transform(content)) == content
  {
    var lines := SplitLines(content);
    var modified := ReverseAll(lines);
    ModifiedLines(content);
    if lines != [] {
      // The last line is not empty: the content does not end in a boundary.
      SplitLinesIsLineSplit(content);
      LastLineNonEmpty(content);
      assert modified[|modified| - 1] == Reverse(lines[|lines| - 1]);
    }
    SplitLinesJoin(modified);
    ReverseAllReverseAll(lines);
    JoinSplitLines(content);
  }

  /** Text not ending in a boundary has a non-empty last line. */
  lemma {:induction false} LastLineNonEmpty(s: seq<char>)
    requires s != [] && !IsLineBreak(s[|s| - 1])
    ensures SplitLines(s)[|SplitLines(s)| - 1] != []
    decreases |s|
  {
    var k := FirstBreak(s);
    var n := TerminatorLength(s, k);
    var rest := s[k + n..];
    SplitLinesStep(s, k, n);
    if rest == [] {
      // A non-empty terminator would end the text in a boundary.
      assert n == 0;
      assert s[..k] == s;
    } else {
      assert rest[|rest| - 1] == s[|s| - 1];
      LastLineNonEmpty(rest);
      assert SplitLines(rest) != [];
    }
  }

  lemma ReverseSingle(a: char)
    ensures Reverse([a]) == [a]
  {
    assert Reverse([a])[0] == a;
  }

  lemma ReverseTwo(a: char, b: char)
    ensures Reverse([a, b]) == [b, a]
  {
    var r := Reverse([a, b]);
    assert r[0] == b && r[1] == a;
  }

  /** `splitlines` treats "\r\n" as one boundary and a lone "\r" as
      another: "a\r\nb\rc" has the three lines "a", "b" and "c". */
  lemma SplitLinesMixedBreaks(a: char, b: char, c: char)
    requires !IsLineBreak(a) && !IsLineBreak(b) && !IsLineBreak(c)
    ensures SplitLines([a, '\r', '\n', b, '\r', c]) == [[a], [b], [c]]
  {
    assert SplitLines([b, '\r', c]) == [[b], [c]] by {
      assert BreakFree([c]) && BreakFree([b]);
      SplitLinesSingle([c]);
      assert IsTerminator(['\r']) by { assert IsLineBreak('\r'); }
      assert [b, '\r', c] == [b] + ['\r'] + [c];
      SplitLinesCons([b], ['\r'], [c]);
    }
    assert SplitLines([a, '\r', '\n', b, '\r', c]) == [[a]] + SplitLines([b, '\r', c]) by {
      assert BreakFree([a]);
      assert [a, '\r', '\n', b, '\r', c] == [a] + ['\r', '\n'] + [b, '\r', c];
      SplitLinesCons([a], ['\r', '\n'], [b, '\r', c]);
    }
  }

  /** Both kinds of boundary come out as a single line feed: "a\r\nb\rc"
      becomes "a\nb\nc". */
  lemma TransformNormalisesBreaks(a: char, b: char, c: char)
    requires !IsLineBreak(a) && !IsLineBreak(b) && !IsLineBreak(c)
    ensures Transform([a, '\r', '\n', b, '\r', c]) == [a, '\n', b, '\n', c]
  {
    SplitLinesMixedBreaks(a, b, c);
    var m: seq<seq<char>> := [[a], [b], [c]];
    assert ReverseAll(m) == m by {
      ReverseSingle(a);
      ReverseSingle(b);
      ReverseSingle(c);
    }
    assert JoinNL(m) == [a, '\n', b, '\n', c] by {
      assert JoinNL([[b], [c]]) == [b, '\n', c] by {
        JoinNLCons([b], [[c]]);
      }
      assert m == [[a]] + [[b], [c]];
      JoinNLCons([a], [[b], [c]]);
    }
  }

  /** Any boundary between two lines, whichever of the ten characters it is,
      comes out as a single line feed. */
  lemma TransformBreakBetween(a: char, x: char, b: char)
    requires !IsLineBreak(a) && IsLineBreak(x) && !IsLineBreak(b)
    ensures Transform([a, x, b]) == [a, '\n', b]
  {
    assert SplitLines([a, x, b]) == [[a], [b]] by {
      assert BreakFree([a]) && BreakFree([b]) && IsTerminator([x]);
      SplitLinesSingle([b]);
      assert [a, x, b] == [a] + [x] + [b];
      SplitLinesCons([a], [x], [b]);
    }
    assert ReverseAll([[a], [b]]) == [[a], [b]] by {
      ReverseSingle(a);
      ReverseSingle(b);
    }
    assert JoinNL([[a], [b]]) == [a, '\n', b] by {
      JoinNLCons([a], [[b]]);
    }
  }

  /** A boundary at the end of the text starts no new line, so it is dropped
      from the output rather than turned into a line feed. */
  lemma TransformFinalBreak(a: char, x: char)
    requires !IsLineBreak(a) && IsLineBreak(x)
    ensures Transform([a, x]) == [a]
  {
    assert SplitLines([a, x]) == [[a]] by {
      assert BreakFree([a]) && IsTerminator([x]);
      assert [a, x] == [a] + [x] + [];
      SplitLinesCons([a], [x], []);
    }
    assert ReverseAll([[a]]) == [[a]] by {
      ReverseSingle(a);
    }
  }

  /** A final empty line leaves only a trailing line feed behind, which a
      later `splitlines` no longer counts as a line: "ab\n\n" has two lines,
      its output "ba\n" has one. */
  lemma TrailingEmptyLine(a: char, b: char)
    requires !IsLineBreak(a) && !IsLineBreak(b)
    ensures SplitLines([a, b, '\n', '\n']) == [[a, b], []]
    ensures Transform([a, b, '\n', '\n']) == [b, a, '\n']
    ensures SplitLines([b, a, '\n']) == [[b, a]]
  {
    assert SplitLines(['\n']) == [[]] by {
      assert ['\n'] == [] + ['\n'] + [];
      SplitLinesCons([], ['\n'], []);
    }
    assert SplitLines([a, b, '\n', '\n']) == [[a, b], []] by {
      assert [a, b, '\n', '\n'] == [a, b] + ['\n'] + ['\n'];
      SplitLinesCons([a, b], ['\n'], ['\n']);
    }
    assert ReverseAll([[a, b], []]) == [[b, a], []] by {
      ReverseTwo(a, b);
    }
    var m: seq<seq<char>> := [[b, a], []];
    assert m[1..] == [[]];
    assert JoinNL(m) == [b, a] + ['\n'] + [];
    assert Transform([a, b, '\n', '\n']) == JoinNL(m);
    assert SplitLines([b, a, '\n']) == [[b, a]] by {
      assert [b, a, '\n'] == [b, a] + ['\n'] + [];
      SplitLinesCons([b, a], ['\n'], []);
    }
  }

  const OutputPrefix: string := "modified_"

  /** `"modified_" + filename` (line 16). */
  function OutName(name: string): (out: string)
    ensures |out| == |OutputPrefix| + |name|
    ensures out[..|OutputPrefix|] == OutputPrefix
    ensures out[|OutputPrefix|..] == name
  {
    OutputPrefix + name
  }

  /** Different inputs get different output names, and the output never
      has the input's own name, so writing it cannot clobber the input. */
  lemma OutNameInjective(a: string, b: string)
    ensures OutName(a) == OutName(b) <==> a == b
    ensures OutName(a) != a
  {
    if OutName(a) == OutName(b) {
      assert a == OutName(a)[|OutputPrefix|..] == OutName(b)[|OutputPrefix|..] == b;
    }
    assert |OutName(a)| != |a|;
  }

  lemma OutNameExample()
    ensures OutName("notes.txt") == "modified_notes.txt"
  {
  }
}
